=== FILE: README.md ===
# Composite slugs and schema-sync scheduling, in Dafny

This project models two pieces of Bytebase.

**The composite-slug codec** (`frontend/src/utils/slug.ts`). A composite slug is a
normalised display name, the delimiter `-`, and an identifier. The identifier is
appended last and is never normalised. Encoders build issue, plan, task, stage,
review-policy and worksheet slugs. Decoders split a slug on `-` and read its last
segment:

- `indexOrUIDFromSlug` returns a number, or -1 as the "no number" sentinel;
- `uidFromSlug` and `indexFromSlug` return a number or NaN;
- `idFromSlug` returns the opaque last segment;
- `projectNameFromSheetSlug` and `worksheetNameFromSlug` return resource names.

The model has these modules:

- `Segments`: JavaScript's `split("-")` and `join("-")` on `seq<char>`, with their round trips.
- `Numbers`: `parseInt` (section 19.2.5 of ECMA-262) and the decimal rendering of integral Numbers.
- `Slug`: the encoders and decoders, and the round-trip lemmas.

The `slug` normaliser, `getProjectName`, `getWorksheetId` and the two resource-name
prefixes are defined outside `slug.ts`. Here they are parameters, so every round-trip
lemma holds whatever they return. That includes a normalised name that contains
`-` or digits.

**The schema syncer's decision rules** (`backend/runner/schemasync/syncer.go`):

- `Schedule`: the interval default ("never sync" is 0) and the last-sync-time default (the Unix epoch).
- `Schedule`: which instances `trySyncAll` hands to `SyncInstance`, and which databases it puts in the pending sync map.
- `Reconcile`: how `SyncInstance` matches stored database names against the names the engine reports. Missing ones are created in the default project. Vanished ones are marked NOT_FOUND. It also builds the instance update.
- `SchemaMetadata`: the copy of comments into user comments over the schema tree, the engines that skip the schema-drift check, and the choice of the comment-only path.

The store, the driver and the protobuf validity checks are abstracted:

- A store listing that fails is `None`.
- A failing store write is given by a predicate parameter.
- `Duration.IsValid` and `Timestamp.IsValid` are predicate parameters (`Store.ProtoValidity`).
- Times and durations are integer nanoseconds. Times count from the Unix epoch.

About the sentinel: the code decides by the *leading* digits of the last segment, not
by its last character. So `"4a"` decodes to 4, and `""` decodes to -1
(`Slug.LeadingDigitsDecide`).

## Model

| member | source | states |
|---|---|---|
| Segments.Split | frontend/src/utils/slug.ts:13 | `split("-")` always gives at least one segment, and no segment contains the delimiter |
| Segments.SplitCount | frontend/src/utils/slug.ts:13 | a string splits into exactly one segment iff it has no delimiter |
| Segments.SplitDashFree | frontend/src/utils/slug.ts:27-28 | a string with no delimiter splits into itself, so it is its own last segment |
| Segments.LastSegment | frontend/src/utils/slug.ts:27-28 | the last segment has no delimiter, and is the whole input when the input has none |
| Segments.InitSegments | frontend/src/utils/slug.ts:32-33 | the segments before the last have no delimiter, and there are none iff the input has no delimiter |
| Segments.Residual | frontend/src/utils/slug.ts:32-34 | the rejoined remainder is empty when there is no delimiter; otherwise it, a delimiter and the last segment make up the input |
| Segments.JoinSplit | frontend/src/utils/slug.ts:32-34 | joining the split segments with `-` rebuilds the input exactly |
| Segments.SplitJoin | frontend/src/utils/slug.ts:48 | splitting a join of delimiter-free parts gives the parts back |
| Segments.JoinEnds | frontend/src/utils/slug.ts:34 | `join("-")` begins with the first part and ends with the last one |
| Segments.JoinDelimiterCount | frontend/src/utils/slug.ts:48 | joining n delimiter-free parts inserts exactly n - 1 delimiters |
| Segments.SplitConcat | frontend/src/utils/slug.ts:48 | splitting `p-t` gives the segments of `p` followed by those of `t` |
| Segments.SplitShape | frontend/src/utils/slug.ts:26-35 | every input with a delimiter is residual + `-` + last segment; an input without one has an empty residual |
| Segments.AppendedSegment | frontend/src/utils/slug.ts:22-34 | for any `p` and delimiter-free `t`, the last segment of `p-t` is `t` and the residual is `p` |
| Segments.AppendedDashedSegment | frontend/src/utils/slug.ts:31-40 | if `t` contains a delimiter, only its tail comes back as the last segment, and the residual grows past `p` |
| Segments.JoinConcat | frontend/src/utils/slug.ts:34 | joining two non-empty part lists puts one delimiter between their joins |
| Numbers.DigitRun | frontend/src/utils/slug.ts:14 | `parseInt` reads the longest digit prefix and stops at the first non-digit |
| Numbers.NatToString | frontend/src/utils/slug.ts:48 | a non-negative id is rendered as decimal digits only, with no leading zero |
| Numbers.ParseInt | frontend/src/utils/slug.ts:14 | a radix outside 2..36 other than 0 gives NaN; a negative result needs a leading minus sign, and a leading minus sign never gives a positive result (section 19.2.5 of ECMA-262) |
| Numbers.IntToString | frontend/src/utils/slug.ts:56 | a rendered integer starts with `-` iff it is negative |
| Numbers.ValueOfNatToString | frontend/src/utils/slug.ts:48 | the rendered digits have exactly the id's value |
| Numbers.NumeralPrefix | frontend/src/utils/slug.ts:14 | `parseInt(_, 10)` reads a rendered number back even when non-digits follow it |
| Numbers.ParseNatToString | frontend/src/utils/slug.ts:23 | both the radix-10 and the radix-less `parseInt` invert the decimal rendering |
| Numbers.RadixlessIsDecimal | frontend/src/utils/slug.ts:23 | without a `0x`/`0X` prefix, the radix-less `parseInt` reads the same value as the radix-10 call |
| Numbers.ParseUnsignedNonNegative | frontend/src/utils/slug.ts:15 | with no `-` in the input, `parseInt` never yields a negative number |
| Numbers.DecimalParseFails | frontend/src/utils/slug.ts:14-15 | `parseInt(_, 10)` is NaN iff no decimal digit starts the input after at most one sign |
| Slug.IndexOrUidFromSlug | frontend/src/utils/slug.ts:12-19 | the result is the sentinel -1 or a non-negative number |
| Slug.UidFromSlug | frontend/src/utils/slug.ts:21-24 | a number read from a slug is never negative |
| Slug.IdFromSlug | frontend/src/utils/slug.ts:26-29 | the identifier is the longest delimiter-free suffix of the slug: the whole slug when it has no `-` |
| Slug.ProjectNameFromSheetSlug | frontend/src/utils/slug.ts:31-35 | the prefix, then the slug minus exactly its last segment and delimiter; inner hyphens survive; just the prefix when there is no `-` |
| Slug.WorksheetNameFromSlug | frontend/src/utils/slug.ts:37-40 | the prefix followed by the slug's last segment, the longest delimiter-free suffix that `IdFromSlug` characterises |
| Slug.IndexFromSlug | frontend/src/utils/slug.ts:42-45 | a decoded index is never below -1 |
| Slug.IssueSlug | frontend/src/utils/slug.ts:47-49 | exactly the normalised name, a delimiter, then `String(id)` (a minus sign included); the last segment holds the digits of the id's magnitude |
| Slug.NumericSlug | frontend/src/utils/slug.ts:47-61 | the shared `[token, id].join("-")`: exactly the token, a delimiter, then `String(id)`; the last segment holds the digits of the id's magnitude |
| Slug.PlanSlug | frontend/src/utils/slug.ts:51-53 | exactly the normalised name, a delimiter, then `String(id)`; the last segment holds the digits of the id's magnitude |
| Slug.StageSlug | frontend/src/utils/slug.ts:55-57 | exactly the normalised name, a delimiter, then `String(index + 1)`; the last segment holds the 1-based position |
| Slug.TaskSlug | frontend/src/utils/slug.ts:59-61 | exactly the normalised name, a delimiter, then `String(id)`; the last segment holds the digits of the id's magnitude |
| Slug.SqlReviewPolicySlug | frontend/src/utils/slug.ts:63-65 | the slug is the policy id itself, and a delimiter-free id comes back from `idFromSlug` |
| Slug.WorksheetSlugV1 | frontend/src/utils/slug.ts:67-71 | the slug is the project name, one delimiter, then the worksheet uid |
| Slug.NumericSlugRoundTrip | frontend/src/utils/slug.ts:47-61 | for any normaliser, `indexOrUIDFromSlug` and `uidFromSlug` return the id of an issue, plan or task slug iff the id is non-negative |
| Slug.NegativeIdDecodesToMagnitude | frontend/src/utils/slug.ts:47-49 | a negative id loses its sign: it decodes to its magnitude, not to -1 |
| Slug.StageSlugRoundTrip | frontend/src/utils/slug.ts:55-57 | `indexFromSlug` gives back the stage index iff the index is at least -1 |
| Slug.IndexOrUidSentinel | frontend/src/utils/slug.ts:13-16 | the result is -1 iff the last segment does not start with a decimal digit, optionally after `+` |
| Slug.NegativeBranchUnreachable | frontend/src/utils/slug.ts:15-17 | the `indexOrUID < 0` test never fires, because a split segment has no minus sign |
| Slug.SqlReviewPolicyRoundTrip | frontend/src/utils/slug.ts:63-65 | `idFromSlug` gives back a policy id iff the id has no delimiter |
| Slug.WorksheetRoundTrip | frontend/src/utils/slug.ts:67-71 | both resource names come back from a worksheet slug iff the worksheet id has no delimiter |
| Slug.LeadingDigitsDecide | frontend/src/utils/slug.ts:14-16 | `"4a"` decodes to 4 and `""` decodes to -1 |
| Slug.ReportExample | frontend/src/utils/slug.ts:12-35 | `"report-42"` decodes to id 42 with residual `"report"` |
| Slug.EmbeddedDelimitersExample | frontend/src/utils/slug.ts:13-14 | `"my-report-name-7"` decodes to 7 |
| Slug.OpaqueIdExample | frontend/src/utils/slug.ts:26-29 | `"policy-abc123"` yields `"abc123"` |
| Schedule.GetOrDefaultSyncInterval | backend/runner/schemasync/syncer.go:633-644 | "never sync" (0) for an inactive instance, a missing or invalid interval, or a zero interval; otherwise the configured duration |
| Schedule.GetOrDefaultLastSyncTime | backend/runner/schemasync/syncer.go:646-651 | the timestamp when it is present and valid, the Unix epoch otherwise |
| Schedule.IndexById | backend/runner/schemasync/syncer.go:163-166 | every listed instance's resource id is a key, and each key maps to a listed instance with that id |
| Schedule.IndexByIdLastWins | backend/runner/schemasync/syncer.go:163-166 | among instances that share a resource id, the last one listed is kept |
| Schedule.BuildInstancesMap | backend/runner/schemasync/syncer.go:163-166 | the map built by the loop is the instance index |
| Schedule.DueEntriesSpec | backend/runner/schemasync/syncer.go:173-196 | the queued uids are exactly the uids of due databases, and each entry is a due database filed under its uid |
| Schedule.DispatchInstances | backend/runner/schemasync/syncer.go:137-160 | an instance is dispatched iff its interval is non-zero and now >= lastSyncTime + interval |
| Schedule.QueueOne | backend/runner/schemasync/syncer.go:174-195 | one database is stored under its uid iff it is OK, its instance is listed with a non-zero interval, and now >= its lastSyncTime + interval |
| Schedule.MergedQueue | backend/runner/schemasync/syncer.go:195 | storing due databases keeps every pending entry's key, and otherwise changes only due uids |
| Schedule.QueueDatabases | backend/runner/schemasync/syncer.go:173-196 | a uid is in the sync map afterwards iff it was pending or some due database has it; a pending entry without a due database is unchanged |
| Schedule.QueueStep | backend/runner/schemasync/syncer.go:173-196 | each database of the loop either adds its own entry to the sync map or leaves the map as merged so far |
| Schedule.TrySyncAll | backend/runner/schemasync/syncer.go:120-197 | a failed instance listing does nothing; a failed database listing leaves the map unchanged; otherwise the instances are dispatched by the due-check, and the map becomes the pending map with every due database stored under its uid |
| Reconcile.NewDatabaseFor | backend/runner/schemasync/syncer.go:285-291 | a discovered database is created under this instance, in the default project, with the reported name, datashare flag and service name |
| Reconcile.BuildInstanceUpdate | backend/runner/schemasync/syncer.go:241-254 | the update carries the sync time and the engine's lower-case-table-names setting; it carries the engine version iff the version changed |
| Reconcile.MetadataComparisonIsRedundant | backend/runner/schemasync/syncer.go:245-254 | the update is the same whether or not the old and new metadata compare equal |
| Reconcile.PlanCreates | backend/runner/schemasync/syncer.go:275-295 | a create is planned iff a reported name is not stored, in reported order (`PlannedCreates`); it goes to the default project; a stored name is never re-created |
| Reconcile.PlanVanished | backend/runner/schemasync/syncer.go:297-315 | a name is marked NOT_FOUND iff it is stored and not reported, in stored order (`PlannedVanished`); databases present on both sides are untouched |
| Reconcile.ReconcileActions | backend/runner/schemasync/syncer.go:275-315 | the writes are exactly the planned creates, in order, followed by the planned marks, in order |
| Reconcile.JustifiedWriteMeans | backend/runner/schemasync/syncer.go:275-315 | a justified create is a database of this instance in the default project, named after a reported database that is not stored; a justified mark names a stored database that is no longer reported |
| Reconcile.PlannedWrites | backend/runner/schemasync/syncer.go:275-315 | the planned writes are all justified, and every justified create and mark is planned |
| Reconcile.AppliedPlan | backend/runner/schemasync/syncer.go:275-315 | the writes applied before a stop are justified and succeeded; the whole plan goes through when no justified write fails |
| Reconcile.ApplyUntilFailure | backend/runner/schemasync/syncer.go:285-313 | the writes done are a prefix of the plan, and all succeeded; any stop is at the first failing write |
| Reconcile.CreatesBeforeMarks | backend/runner/schemasync/syncer.go:275-315 | a mark is applied only after every planned create went through, so a failing create leaves every database unmarked |
| Reconcile.SyncInstance | backend/runner/schemasync/syncer.go:221-318 | read-only mode skips everything; a driver or update failure writes nothing; any other failure still reports the update written, the one built from the engine's report; a failed users upsert or database listing writes nothing after it; otherwise the writes done are the planned creates then marks up to the first failing one, and the sync completes iff none fails; every write is a justified create or mark |
| SchemaMetadata.CopyColumnComments | backend/runner/schemasync/syncer.go:626-628 | every column's user comment equals its comment, and nothing else in the columns changes |
| SchemaMetadata.CopyTableComments | backend/runner/schemasync/syncer.go:624-629 | every table's and column's user comment equals its comment, and nothing else changes |
| SchemaMetadata.CopySchemaComments | backend/runner/schemasync/syncer.go:623-630 | every table and column in every schema gets its comment as user comment, and nothing else changes |
| SchemaMetadata.SetUserCommentFromComment | backend/runner/schemasync/syncer.go:622-631 | afterwards every user comment equals its comment, and the tree is unchanged apart from user comments |
| SchemaMetadata.CopyColumnCommentsFixed | backend/runner/schemasync/syncer.go:626-628 | columns whose user comments already match are left as they are |
| SchemaMetadata.CopyTableCommentsFixed | backend/runner/schemasync/syncer.go:624-629 | tables whose user comments already match are left as they are |
| SchemaMetadata.CopySchemaCommentsFixed | backend/runner/schemasync/syncer.go:623-630 | schemas whose user comments already match are left as they are |
| SchemaMetadata.SetUserCommentFixedPoint | backend/runner/schemasync/syncer.go:622-631 | the copy changes the tree iff some user comment differs from its comment; running it twice equals running it once |
| SchemaMetadata.DisableSchemaDriftAnomalyCheck | backend/runner/schemasync/syncer.go:653-664 | true exactly for MONGODB, REDIS, ORACLE, OCEANBASE_ORACLE, MSSQL and REDSHIFT |
| SchemaMetadata.UserCommentOnly | backend/runner/schemasync/syncer.go:369-379 | the comment-only path is taken iff the configuration says so or the engine is neither MySQL nor PostgreSQL |
| SchemaMetadata.DriftExemptEnginesCopyCommentsOnly | backend/runner/schemasync/syncer.go:369-372 | every engine that skips the drift check also takes the comment-only path |

## Left out

- `parseInt` does not skip leading white space here. In JavaScript, `"a- 5"` decodes to 5; in this model it decodes to NaN or -1.
- Numbers are unbounded integers. Precision loss above 2^53, exponent notation from 1e21, and non-integral ids are not modelled. A parsed `-0` is 0.
- The radix-less `parseInt` calls (`uidFromSlug`, `indexFromSlug`) are modelled with their `0x`/`0X` hexadecimal prefix. The round-trip lemmas cover only the decimal renderings that the encoders produce.
- `slug`, `getProjectName`, `getWorksheetId`, `projectNamePrefix` and `worksheetNamePrefix` are defined outside `slug.ts`. They are function and string parameters.
- `Reconcile.DefaultProjectId` is `"default"`, the value of `api.DefaultProjectID`. That constant is defined outside `syncer.go`.
- `Run`, the tickers, the goroutine pools, `sync.Map`, the mutex and the panic recovery in `trySyncAll` are left out. They are concurrency plumbing. The pending sync map is an explicit value passed in and out.
- `SyncAllDatabases` and `SyncDatabaseSchema` are not part of this model, except for two pure choices inside `SyncDatabaseSchema`: the comment path (`UserCommentOnly`) and the engine gate of the drift check (`DisableSchemaDriftAnomalyCheck`).
- The anomaly upsert and archive paths, JSON marshalling, `driver.Dump` and deadline contexts are I/O and are left out.
- `equalInstanceMetadata` and `equalDatabaseMetadata` compare protobuf messages with library code. `equalInstanceMetadata` is the boolean parameter `metadataEqual`; `equalDatabaseMetadata` is not modelled.
- `setClassificationAndUserCommentFromComment` is left out. It depends on `common.GetClassificationAndUserComment` and `model.DatabaseConfig`, which are outside `syncer.go`.
- `Duration.IsValid` and `Timestamp.IsValid` are predicate parameters. `AsDuration`, `AsTime` and `time.Time.Add` are exact integer arithmetic, without the saturation of the Go and protobuf libraries at the edges of `int64`.
- Store write failures are a fixed predicate `fails` on the write. The predicate does not depend on store state. So when a reported name is listed twice, its two identical creates both succeed or both fail, whereas the real store would reject the second one.
- `Store.Engine` does not rule out `OtherEngine` carrying a named engine's enum name, such as `OtherEngine("MONGODB")`. Such a value stands for no real engine, and `DisableSchemaDriftAnomalyCheck` treats it like any other unnamed engine.
- The instance-user upsert (lines 260-269) is modelled only as the failure flag `usersFail`. The converted user list is not modelled.
- A nil `Options` or nil `Metadata` would panic in Go. The model always has them; only the interval and timestamp inside them may be absent.
- Schema-tree nodes keep only the fields named in `setUserCommentFromComment` plus a few representative others (column type, table row count). "Nothing else changes" is stated over those fields.

=== FILE: numbers.dfy ===
/**
 * The two JavaScript number conversions the slug codec relies on:
 * `parseInt(string, radix?)` (section 19.2.5 of ECMA-262) and the decimal
 * rendering of an integral Number by `String(n)` / `Array.prototype.join`.
 * Numbers are unbounded integers here; NaN is `None`.
 */
module Numbers {
  import opened Wrappers

  predicate IsDecimalDigit(c: char) {
    '0' <= c <= '9'
  }

  /** Value of `c` as a digit in radix up to 36; 36 when it is a digit in no radix. */
  function DigitValue(c: char): (d: nat)
    ensures d <= 36
    ensures d < 10 <==> IsDecimalDigit(c)
  {
    if '0' <= c <= '9' then c as int - '0' as int
    else if 'a' <= c <= 'z' then c as int - 'a' as int + 10
    else if 'A' <= c <= 'Z' then c as int - 'A' as int + 10
    else 36
  }

  predicate AllDigits(s: string, radix: nat) {
    forall i :: 0 <= i < |s| ==> DigitValue(s[i]) < radix
  }

  /** Length of the longest prefix of `s` made of radix-`radix` digits. */
  function DigitRun(s: string, radix: nat): (n: nat)
    ensures n <= |s|
    ensures AllDigits(s[..n], radix)
    ensures n < |s| ==> DigitValue(s[n]) >= radix
  {
    if |s| == 0 || DigitValue(s[0]) >= radix then 0
    else 1 + DigitRun(s[1..], radix)
  }

  /** Positional value of a digit string, most significant digit first. */
  function ValueOf(ds: string, radix: nat): (v: nat)
    requires AllDigits(ds, radix)
  {
    if |ds| == 0 then 0
    else ValueOf(ds[..|ds| - 1], radix) * radix + DigitValue(ds[|ds| - 1])
  }

  /** ToInt32 of an integral radix argument (ECMA-262 section 7.1.6). */
  function ToInt32(x: int): (r: int)
    ensures -0x8000_0000 <= r < 0x8000_0000
    ensures (x - r) % 0x1_0000_0000 == 0
  {
    (x + 0x8000_0000) % 0x1_0000_0000 - 0x8000_0000
  }

  /** The input with at most one leading sign character removed. */
  function Unsigned(s: string): (u: string)
    ensures |u| <= |s|
  {
    if |s| > 0 && (s[0] == '-' || s[0] == '+') then s[1..] else s
  }

  /** The longest radix-`base` digit prefix of `body`, read as a number; None when empty. */
  function ParseDigits(body: string, base: nat): (r: Option<nat>)
    ensures r.None? <==> DigitRun(body, base) == 0
  {
    var end := DigitRun(body, base);
    if end == 0 then None else Some(ValueOf(body[..end], base))
  }

  /** True when `u` begins with the hexadecimal prefix `0x` or `0X`. */
  predicate HexPrefixed(u: string) {
    |u| >= 2 && u[0] == '0' && (u[1] == 'x' || u[1] == 'X')
  }

  /**
   * `parseInt(s, radix)`; `radix == None` is the radix-less call. Leading white
   * space is not skipped (see README). A parsed zero is 0, never -0.
   */
  function ParseInt(s: string, radix: Option<int>): (r: Option<int>)
    ensures (radix.Some? && ToInt32(radix.value) != 0
             && (ToInt32(radix.value) < 2 || ToInt32(radix.value) > 36)) ==> r.None?
    ensures r.Some? && r.value < 0 ==> |s| > 0 && s[0] == '-'
    ensures r.Some? && |s| > 0 && s[0] == '-' ==> r.value <= 0
  {
    var negative := |s| > 0 && s[0] == '-';
    var unsigned := Unsigned(s);
    var r := if radix.None? then 0 else ToInt32(radix.value);
    if r != 0 && (r < 2 || r > 36) then None
    else
      var hex := (r == 0 || r == 16) && HexPrefixed(unsigned);
      var base: nat := if hex then 16 else if r == 0 then 10 else r;
      match ParseDigits(if hex then unsigned[2..] else unsigned, base)
      case None => None
      case Some(magnitude) => Some(if negative then -(magnitude as int) else magnitude)
  }

  /** The decimal digit character for `d`. */
  function DigitChar(d: nat): (c: char)
    requires d < 10
    ensures IsDecimalDigit(c) && DigitValue(c) == d
  {
    ('0' as int + d) as char
  }

  /** `String(n)` for a non-negative integral Number: decimal, no leading zeros. */
  function NatToString(n: nat): (s: string)
    ensures |s| >= 1
    ensures forall i :: 0 <= i < |s| ==> IsDecimalDigit(s[i])
    ensures n > 0 ==> s[0] != '0'
  {
    if n < 10 then [DigitChar(n)]
    else NatToString(n / 10) + [DigitChar(n % 10)]
  }

  /** `String(n)` for an integral Number: a minus sign in front of negatives. */
  function IntToString(n: int): (s: string)
    ensures |s| >= 1
    ensures s[0] == '-' <==> n < 0
  {
    if n < 0 then ['-'] + NatToString(-n) else NatToString(n)
  }

  /** Reading back the rendered digits gives the number again. */
  lemma {:induction false} ValueOfNatToString(n: nat)
    ensures AllDigits(NatToString(n), 10)
    ensures ValueOf(NatToString(n), 10) == n
    decreases n
  {
    var s := NatToString(n);
    assert AllDigits(s, 10) by {
      forall i | 0 <= i < |s| ensures DigitValue(s[i]) < 10 {
        assert IsDecimalDigit(s[i]);
      }
    }
    if n >= 10 {
      ValueOfNatToString(n / 10);
      assert s[..|s| - 1] == NatToString(n / 10);
    }
  }

  /** A digit run stops exactly at the first non-digit after an all-digit prefix. */
  lemma {:induction false} DigitRunOfPrefix(ds: string, rest: string, radix: nat)
    requires AllDigits(ds, radix)
    requires |rest| == 0 || DigitValue(rest[0]) >= radix
    ensures DigitRun(ds + rest, radix) == |ds|
    decreases |ds|
  {
    if |ds| > 0 {
      assert (ds + rest)[1..] == ds[1..] + rest;
      DigitRunOfPrefix(ds[1..], rest, radix);
    } else {
      assert ds + rest == rest;
    }
  }

  /** An unsigned decimal input parses, in radix 10, to the value of its digit run. */
  lemma ParseUnsignedDecimal(s: string)
    requires |s| > 0 && IsDecimalDigit(s[0])
    ensures ParseDigits(s, 10).Some?
    ensures ParseInt(s, Some(10)) == Some(ParseDigits(s, 10).value)
  {
  }

  /**
   * In radix 10, `parseInt` reads a rendered non-negative number back and stops
   * at the first non-digit that follows it.
   */
  lemma NumeralPrefix(n: nat, rest: string)
    requires |rest| == 0 || !IsDecimalDigit(rest[0])
    ensures ParseInt(NatToString(n) + rest, Some(10)) == Some(n)
  {
    var ds := NatToString(n);
    var s := ds + rest;
    ValueOfNatToString(n);
    DigitRunOfPrefix(ds, rest, 10);
    assert s[0] == ds[0];
    ParseUnsignedDecimal(s);
    assert s[..|ds|] == ds;
  }

  /** Without a hexadecimal prefix, the radix-less call reads decimal. */
  lemma RadixlessIsDecimal(s: string)
    requires !HexPrefixed(Unsigned(s))
    ensures ParseInt(s, None) == ParseInt(s, Some(10))
  {
  }

  /** The round trip of `parseInt` and `String` on non-negative integers, with or without radix. */
  lemma ParseNatToString(n: nat)
    ensures ParseInt(NatToString(n), Some(10)) == Some(n)
    ensures ParseInt(NatToString(n), None) == Some(n)
  {
    var ds := NatToString(n);
    NumeralPrefix(n, "");
    assert ds + "" == ds;
    assert |ds| >= 2 ==> IsDecimalDigit(ds[1]);
    RadixlessIsDecimal(ds);
  }

  /** Without a minus sign in the input, `parseInt` never yields a negative number. */
  lemma ParseUnsignedNonNegative(s: string, radix: Option<int>)
    requires '-' !in s
    ensures ParseInt(s, radix).None? || ParseInt(s, radix).value >= 0
  {
  }

  /**
   * In radix 10, `parseInt` fails exactly when no decimal digit starts the input,
   * after at most one sign character.
   */
  lemma DecimalParseFails(s: string)
    ensures ParseInt(s, Some(10)).None? <==> !StartsNumeral(s)
  {
  }

  /** A decimal digit, possibly after one sign character, starts `s`. */
  predicate StartsNumeral(s: string) {
    || (|s| >= 1 && IsDecimalDigit(s[0]))
    || (|s| >= 2 && (s[0] == '+' || s[0] == '-') && IsDecimalDigit(s[1]))
  }
}

=== FILE: reconcile.dfy ===
/**
 * `SyncInstance`: the instance update written after a successful driver sync and
 * the reconciliation of stored database names against the names the engine
 * reports. Store writes are actions; whether a write fails is a parameter.
 */
module Reconcile {
  import opened Wrappers
  import opened Store

  /** `api.DefaultProjectID`, the project newly discovered databases land in. */
  const DefaultProjectId: string := "default"

  /** A database as the engine driver reports it. */
  datatype ReportedDatabase = ReportedDatabase(name: string, datashare: bool, serviceName: string)

  /** A role or user as the engine driver reports it. */
  datatype InstanceRole = InstanceRole(name: string, grant: string)

  /** What `driver.SyncInstance` returns. */
  datatype SyncedInstance = SyncedInstance(
    version: string,
    mysqlLowerCaseTableNames: int,
    roles: seq<InstanceRole>,
    databases: seq<ReportedDatabase>)

  /** The `store.DatabaseMessage` passed to `CreateDatabaseDefault`. */
  datatype NewDatabase = NewDatabase(
    instanceId: string,
    name: string,
    datashare: bool,
    serviceName: string,
    projectId: string)

  /** A store write of the reconciliation: create a database, or mark one NOT_FOUND. */
  datatype StoreAction =
    | CreateDatabase(database: NewDatabase)
    | MarkNotFound(instanceId: string, databaseName: string)

  /** The `store.UpdateInstanceMessage` written after the driver sync. */
  datatype InstanceUpdate = InstanceUpdate(
    resourceId: string,
    lastSyncTime: Timestamp,
    mysqlLowerCaseTableNames: int,
    engineVersion: Option<string>)

  /** How a call of `SyncInstance` ends, with the store writes it got through. */
  datatype SyncOutcome =
    | ReadOnlySkip
    | Failed(written: Option<InstanceUpdate>, applied: seq<StoreAction>)
    | Synced(update: InstanceUpdate, applied: seq<StoreAction>)

  predicate IsStored(stored: seq<Database>, name: string) {
    exists d :: d in stored && d.name == name
  }

  predicate IsReported(reported: seq<ReportedDatabase>, name: string) {
    exists m :: m in reported && m.name == name
  }

  /** The database a reported name is created as: in the default project of this instance. */
  function NewDatabaseFor(instanceId: string, m: ReportedDatabase): (d: NewDatabase)
    ensures d.name == m.name && d.instanceId == instanceId && d.projectId == DefaultProjectId
    ensures d.datashare == m.datashare && d.serviceName == m.serviceName
  {
    NewDatabase(instanceId, m.name, m.datashare, m.serviceName, DefaultProjectId)
  }

  /**
   * The instance update: stamped with the sync time, carrying the engine's
   * lower-case-table-names setting, and carrying the engine version only when
   * it changed.
   */
  function BuildInstanceUpdate(instance: Instance, synced: SyncedInstance, now: Timestamp,
                               metadataEqual: bool): (u: InstanceUpdate)
    ensures u.resourceId == instance.resourceId && u.lastSyncTime == now
    ensures u.mysqlLowerCaseTableNames == synced.mysqlLowerCaseTableNames
    ensures u.engineVersion.Some? <==> synced.version != instance.engineVersion
    ensures u.engineVersion.Some? ==> u.engineVersion.value == synced.version
  {
    var update := InstanceUpdate(instance.resourceId, now, synced.mysqlLowerCaseTableNames, None);
    var update := if synced.version != instance.engineVersion
                  then update.(engineVersion := Some(synced.version)) else update;
    if !metadataEqual
    then update.(mysqlLowerCaseTableNames := synced.mysqlLowerCaseTableNames)
    else update
  }

  /**
   * The metadata comparison decides nothing: the field it guards is already set
   * from the same value when the update is first built.
   */
  lemma MetadataComparisonIsRedundant(instance: Instance, synced: SyncedInstance, now: Timestamp)
    ensures BuildInstanceUpdate(instance, synced, now, true)
         == BuildInstanceUpdate(instance, synced, now, false)
  {
  }

  /** The creates, in reported order: each reported database whose name is not stored. */
  function PlannedCreates(instanceId: string, stored: seq<Database>, reported: seq<ReportedDatabase>)
    : (creates: seq<NewDatabase>)
    decreases |reported|
  {
    if |reported| == 0 then []
    else
      var m := reported[|reported| - 1];
      PlannedCreates(instanceId, stored, reported[..|reported| - 1])
        + (if IsStored(stored, m.name) then [] else [NewDatabaseFor(instanceId, m)])
  }

  /** The marks, in stored order: the name of each stored database that is not reported. */
  function PlannedVanished(stored: seq<Database>, reported: seq<ReportedDatabase>): (vanished: seq<string>)
    decreases |stored|
  {
    if |stored| == 0 then []
    else
      var d := stored[|stored| - 1];
      PlannedVanished(stored[..|stored| - 1], reported)
        + (if IsReported(reported, d.name) then [] else [d.name])
  }

  /**
   * The create side: for each reported database, in order, a scan of the stored
   * databases for its name; the ones not found are created in the default project.
   */
  method PlanCreates(instanceId: string, stored: seq<Database>, reported: seq<ReportedDatabase>)
    returns (creates: seq<NewDatabase>)
    ensures forall c :: c in creates <==>
      exists m :: m in reported && !IsStored(stored, m.name) && c == NewDatabaseFor(instanceId, m)
    ensures forall c :: c in creates ==>
      c.projectId == DefaultProjectId && c.instanceId == instanceId && !IsStored(stored, c.name)
    ensures |creates| <= |reported|
    ensures creates == PlannedCreates(instanceId, stored, reported)
  {
    creates := [];
    var i := 0;
    while i < |reported|
      invariant 0 <= i <= |reported|
      invariant |creates| <= i
      invariant creates == PlannedCreates(instanceId, stored, reported[..i])
      invariant forall c :: c in creates <==>
        exists m :: m in reported[..i] && !IsStored(stored, m.name) && c == NewDatabaseFor(instanceId, m)
    {
      var databaseMetadata := reported[i];
      var exist := false;
      var j := 0;
      while j < |stored|
        invariant 0 <= j <= |stored|
        invariant exist <==> exists d :: d in stored[..j] && d.name == databaseMetadata.name
      {
        if stored[j].name == databaseMetadata.name {
          assert stored[j] in stored[..j + 1];
          exist := true;
          break;
        }
        assert stored[..j + 1] == stored[..j] + [stored[j]];
        j := j + 1;
      }
      assert j == |stored| ==> stored[..j] == stored;
      assert exist <==> IsStored(stored, databaseMetadata.name);
      assert reported[..i + 1] == reported[..i] + [databaseMetadata];
      assert reported[..i + 1][..i] == reported[..i];
      if !exist {
        creates := creates + [NewDatabaseFor(instanceId, databaseMetadata)];
      }
      i := i + 1;
    }
    assert reported[..i] == reported;
  }

  /**
   * The mark side: for each stored database, in order, a scan of the reported
   * databases for its name; the ones not found are marked NOT_FOUND.
   */
  method PlanVanished(stored: seq<Database>, reported: seq<ReportedDatabase>)
    returns (vanished: seq<string>)
    ensures forall name :: name in vanished <==> IsStored(stored, name) && !IsReported(reported, name)
    ensures |vanished| <= |stored|
    ensures vanished == PlannedVanished(stored, reported)
  {
    vanished := [];
    var i := 0;
    while i < |stored|
      invariant 0 <= i <= |stored|
      invariant |vanished| <= i
      invariant vanished == PlannedVanished(stored[..i], reported)
      invariant forall name :: name in vanished <==>
        (exists d :: d in stored[..i] && d.name == name) && !IsReported(reported, name)
    {
      var database := stored[i];
      var exist := false;
      var j := 0;
      while j < |reported|
        invariant 0 <= j <= |reported|
        invariant exist <==> exists m :: m in reported[..j] && m.name == database.name
      {
        if database.name == reported[j].name {
          assert reported[j] in reported[..j + 1];
          exist := true;
          break;
        }
        assert reported[..j + 1] == reported[..j] + [reported[j]];
        j := j + 1;
      }
      assert j == |reported| ==> reported[..j] == reported;
      assert exist <==> IsReported(reported, database.name);
      assert stored[..i + 1] == stored[..i] + [database];
      assert stored[..i + 1][..i] == stored[..i];
      if !exist {
        vanished := vanished + [database.name];
      }
      i := i + 1;
    }
    assert stored[..i] == stored;
  }

  /** Performs store writes in order and stops at the first one that fails. */
  function ApplyUntilFailure(actions: seq<StoreAction>, fails: StoreAction -> bool)
    : (result: (seq<StoreAction>, Option<StoreAction>))
    ensures var (applied, failure) := result;
      && |applied| <= |actions| && applied == actions[..|applied|]
      && (forall a :: a in applied ==> !fails(a))
      && (failure.None? <==> applied == actions)
      && (failure.Some? ==> failure.value == actions[|applied|] && fails(failure.value))
  {
    if |actions| == 0 then ([], None)
    else if fails(actions[0]) then ([], Some(actions[0]))
    else
      var (applied, failure) := ApplyUntilFailure(actions[1..], fails);
      ([actions[0]] + applied, failure)
  }

  /** One create per planned new database, in plan order. */
  function CreateActions(creates: seq<NewDatabase>): (actions: seq<StoreAction>)
    ensures |actions| == |creates|
    ensures forall i :: 0 <= i < |creates| ==> actions[i] == CreateDatabase(creates[i])
  {
    seq(|creates|, i requires 0 <= i < |creates| => CreateDatabase(creates[i]))
  }

  /** One NOT_FOUND mark per vanished name, in plan order. */
  function MarkActions(instanceId: string, vanished: seq<string>): (actions: seq<StoreAction>)
    ensures |actions| == |vanished|
    ensures forall i :: 0 <= i < |vanished| ==> actions[i] == MarkNotFound(instanceId, vanished[i])
  {
    seq(|vanished|, i requires 0 <= i < |vanished| => MarkNotFound(instanceId, vanished[i]))
  }

  /** The reconciliation's writes in the order `SyncInstance` issues them: all creates, then all marks. */
  function ReconcileActions(instanceId: string, creates: seq<NewDatabase>, vanished: seq<string>)
    : (actions: seq<StoreAction>)
    ensures |actions| == |creates| + |vanished|
    ensures forall i :: 0 <= i < |creates| ==> actions[i] == CreateDatabase(creates[i])
    ensures forall i :: 0 <= i < |vanished| ==> actions[|creates| + i] == MarkNotFound(instanceId, vanished[i])
    ensures forall a :: a in actions ==>
      || (a.CreateDatabase? && a.database in creates)
      || (a.MarkNotFound? && a.instanceId == instanceId && a.databaseName in vanished)
    ensures forall c :: c in creates ==> CreateDatabase(c) in actions
    ensures forall name :: name in vanished ==> MarkNotFound(instanceId, name) in actions
  {
    var actions := CreateActions(creates) + MarkActions(instanceId, vanished);
    assert forall c :: c in creates ==> CreateDatabase(c) in actions by {
      forall c | c in creates ensures CreateDatabase(c) in actions {
        var k :| 0 <= k < |creates| && creates[k] == c;
        assert actions[k] == CreateDatabase(c);
      }
    }
    assert forall name :: name in vanished ==> MarkNotFound(instanceId, name) in actions by {
      forall name | name in vanished ensures MarkNotFound(instanceId, name) in actions {
        var k :| 0 <= k < |vanished| && vanished[k] == name;
        assert actions[|creates| + k] == MarkNotFound(instanceId, name);
      }
    }
    assert forall a :: a in actions ==>
      || (a.CreateDatabase? && a.database in creates)
      || (a.MarkNotFound? && a.instanceId == instanceId && a.databaseName in vanished) by {
      forall a | a in actions
        ensures || (a.CreateDatabase? && a.database in creates)
                || (a.MarkNotFound? && a.instanceId == instanceId && a.databaseName in vanished)
      {
        var k :| 0 <= k < |actions| && actions[k] == a;
        if k >= |creates| {
          assert a == MarkNotFound(instanceId, vanished[k - |creates|]);
        }
      }
    }
    actions
  }

  /** A write the reconciliation may issue: a create for a reported, unstored name or a mark for a stored, unreported one. */
  predicate JustifiedWrite(instanceId: string, stored: seq<Database>, reported: seq<ReportedDatabase>,
                           a: StoreAction) {
    match a
    case CreateDatabase(c) =>
      exists m :: m in reported && !IsStored(stored, m.name) && c == NewDatabaseFor(instanceId, m)
    case MarkNotFound(id, name) =>
      id == instanceId && IsStored(stored, name) && !IsReported(reported, name)
  }

  /** A justified create is a new database of this instance in the default project, named after an unstored reported database; a justified mark names a stored, unreported one. */
  lemma JustifiedWriteMeans(instanceId: string, stored: seq<Database>, reported: seq<ReportedDatabase>,
                            a: StoreAction)
    requires JustifiedWrite(instanceId, stored, reported, a)
    ensures a.CreateDatabase? ==>
      && a.database.instanceId == instanceId
      && a.database.projectId == DefaultProjectId
      && IsReported(reported, a.database.name)
      && !IsStored(stored, a.database.name)
    ensures a.MarkNotFound? ==>
      && a.instanceId == instanceId
      && IsStored(stored, a.databaseName)
      && !IsReported(reported, a.databaseName)
  {
  }

  /**
   * With the creates and marks planned as `PlanCreates` and `PlanVanished` plan
   * them, every write is justified and every justified write is in the plan.
   */
  lemma PlannedWrites(instanceId: string, stored: seq<Database>, reported: seq<ReportedDatabase>,
                      creates: seq<NewDatabase>, vanished: seq<string>)
    requires forall c :: c in creates <==>
      exists m :: m in reported && !IsStored(stored, m.name) && c == NewDatabaseFor(instanceId, m)
    requires forall name :: name in vanished <==> IsStored(stored, name) && !IsReported(reported, name)
    ensures forall a :: a in ReconcileActions(instanceId, creates, vanished) ==>
      JustifiedWrite(instanceId, stored, reported, a)
    ensures forall m :: m in reported && !IsStored(stored, m.name) ==>
      CreateDatabase(NewDatabaseFor(instanceId, m)) in ReconcileActions(instanceId, creates, vanished)
    ensures forall d :: d in stored && !IsReported(reported, d.name) ==>
      MarkNotFound(instanceId, d.name) in ReconcileActions(instanceId, creates, vanished)
  {
  }

  /**
   * Applying a plan of justified writes: every applied write is justified and
   * succeeded, and the whole plan goes through when no justified write fails.
   */
  lemma AppliedPlan(instanceId: string, stored: seq<Database>, reported: seq<ReportedDatabase>,
                    actions: seq<StoreAction>, fails: StoreAction -> bool)
    requires forall a :: a in actions ==> JustifiedWrite(instanceId, stored, reported, a)
    ensures var (applied, failure) := ApplyUntilFailure(actions, fails);
      && (forall a :: a in applied ==> !fails(a) && JustifiedWrite(instanceId, stored, reported, a))
      && (failure.None? ==> applied == actions)
      && ((&& (forall m :: m in reported && !IsStored(stored, m.name) ==>
                 !fails(CreateDatabase(NewDatabaseFor(instanceId, m))))
           && (forall d :: d in stored && !IsReported(reported, d.name) ==>
                 !fails(MarkNotFound(instanceId, d.name))))
          ==> failure.None?)
  {
    var (applied, failure) := ApplyUntilFailure(actions, fails);
    forall a | a in applied ensures a in actions {
      var k :| 0 <= k < |applied| && applied[k] == a;
      assert actions[k] == a;
    }
    if failure.Some? {
      assert failure.value in actions;
    }
  }

  /**
   * Creates run before marks: a mark is applied only after every planned create
   * went through, so a failing create leaves every database unmarked.
   */
  lemma CreatesBeforeMarks(instanceId: string, creates: seq<NewDatabase>, vanished: seq<string>,
                           fails: StoreAction -> bool)
    ensures var applied := ApplyUntilFailure(ReconcileActions(instanceId, creates, vanished), fails).0;
      forall k :: 0 <= k < |applied| && applied[k].MarkNotFound? ==>
        && |creates| <= k
        && forall i :: 0 <= i < |creates| ==> applied[i] == CreateDatabase(creates[i])
  {
    var actions := ReconcileActions(instanceId, creates, vanished);
    var applied := ApplyUntilFailure(actions, fails).0;
    forall k | 0 <= k < |applied| && applied[k].MarkNotFound?
      ensures |creates| <= k
      ensures forall i :: 0 <= i < |creates| ==> applied[i] == CreateDatabase(creates[i])
    {
      assert applied[k] == actions[k];
      forall i | 0 <= i < |creates| ensures applied[i] == CreateDatabase(creates[i]) {
        assert applied[i] == actions[i];
      }
    }
  }

  /**
   * `SyncInstance` without the connection plumbing. `synced == None` is a failed
   * connection or driver sync; `stored == None` a failed database listing; the
   * two flags and `fails` say which store writes fail.
   */
  method SyncInstance(readonly: bool, instance: Instance, synced: Option<SyncedInstance>,
                      now: Timestamp, metadataEqual: bool, updateFails: bool, usersFail: bool,
                      stored: Option<seq<Database>>, fails: StoreAction -> bool)
    returns (outcome: SyncOutcome)
    ensures readonly <==> outcome.ReadOnlySkip?
    ensures !readonly && (synced.None? || updateFails) ==> outcome == Failed(None, [])
    ensures !readonly && synced.Some? && !updateFails && (usersFail || stored.None?) ==>
      outcome.Failed? && outcome.written.Some? && outcome.applied == []
    ensures
      && !readonly && synced.Some? && !updateFails && !usersFail && stored.Some?
      && (forall m :: m in synced.value.databases && !IsStored(stored.value, m.name) ==>
            !fails(CreateDatabase(NewDatabaseFor(instance.resourceId, m))))
      && (forall d :: d in stored.value && !IsReported(synced.value.databases, d.name) ==>
            !fails(MarkNotFound(instance.resourceId, d.name)))
      ==> outcome.Synced?
    ensures outcome.Synced? ==> synced.Some? && stored.Some?
    ensures outcome.Failed? ==> (outcome.written.None? <==> synced.None? || updateFails)
    ensures outcome.Synced? ==> outcome.update == BuildInstanceUpdate(instance, synced.value, now, metadataEqual)
    ensures outcome.Failed? && outcome.written.Some? ==>
      synced.Some? && outcome.written.value == BuildInstanceUpdate(instance, synced.value, now, metadataEqual)
    ensures !readonly && synced.Some? && !updateFails && !usersFail && stored.Some? ==>
      var creates := PlannedCreates(instance.resourceId, stored.value, synced.value.databases);
      var vanished := PlannedVanished(stored.value, synced.value.databases);
      var (applied, failure) := ApplyUntilFailure(ReconcileActions(instance.resourceId, creates, vanished), fails);
      outcome.applied == applied && (outcome.Synced? <==> failure.None?)
    ensures !outcome.ReadOnlySkip? ==> forall a :: a in outcome.applied ==>
      && synced.Some? && stored.Some?
      && !fails(a)
      && JustifiedWrite(instance.resourceId, stored.value, synced.value.databases, a)
    ensures outcome.Synced? ==>
      && (forall m :: m in synced.value.databases && !IsStored(stored.value, m.name) ==>
            CreateDatabase(NewDatabaseFor(instance.resourceId, m)) in outcome.applied)
      && (forall d :: d in stored.value && !IsReported(synced.value.databases, d.name) ==>
            MarkNotFound(instance.resourceId, d.name) in outcome.applied)
  {
    if readonly {
      return ReadOnlySkip;
    }
    if synced.None? || updateFails {
      return Failed(None, []);
    }
    var meta := synced.value;
    var update := BuildInstanceUpdate(instance, meta, now, metadataEqual);
    if usersFail || stored.None? {
      return Failed(Some(update), []);
    }
    var creates := PlanCreates(instance.resourceId, stored.value, meta.databases);
    var vanished := PlanVanished(stored.value, meta.databases);
    var actions := ReconcileActions(instance.resourceId, creates, vanished);
    PlannedWrites(instance.resourceId, stored.value, meta.databases, creates, vanished);
    AppliedPlan(instance.resourceId, stored.value, meta.databases, actions, fails);
    var (applied, failure) := ApplyUntilFailure(actions, fails);
    if failure.Some? {
      return Failed(Some(update), applied);
    }
    return Synced(update, applied);
  }
}

=== FILE: schedule.dfy ===
/**
 * When the schema syncer syncs: the interval and last-sync defaults and the
 * due-checks `trySyncAll` applies to instances and databases.
 */
module Schedule {
  import opened Wrappers
  import opened Store

  /** `defaultSyncInterval`: an interval of zero means "never sync". */
  const NeverSync: int := 0

  /** `time.Unix(0, 0)`. */
  const UnixEpoch: int := 0

  /**
   * The sync interval of an instance: "never sync" unless the instance is
   * activated and has a valid, non-zero configured interval, which is then used
   * as it is.
   */
  function GetOrDefaultSyncInterval(instance: Instance, validity: ProtoValidity): (interval: int)
    ensures !instance.activation ==> interval == NeverSync
    ensures instance.options.syncInterval.None? ==> interval == NeverSync
    ensures instance.options.syncInterval.Some? ==>
      var d := instance.options.syncInterval.value;
      && (!validity.durationValid(d) ==> interval == NeverSync)
      && (d.seconds == 0 && d.nanos == 0 ==> interval == NeverSync)
      && ((instance.activation && validity.durationValid(d) && (d.seconds != 0 || d.nanos != 0))
          ==> interval == AsDuration(d))
  {
    if !instance.activation then NeverSync
    else match instance.options.syncInterval
      case None => NeverSync
      case Some(d) =>
        if !validity.durationValid(d) then NeverSync
        else if d.seconds == 0 && d.nanos == 0 then NeverSync
        else AsDuration(d)
  }

  /** The last sync time: the stored timestamp when valid, the Unix epoch otherwise. */
  function GetOrDefaultLastSyncTime(t: Option<Timestamp>, validity: ProtoValidity): (time: int)
    ensures t.Some? && validity.timestampValid(t.value) ==> time == AsTime(t.value)
    ensures t.None? || !validity.timestampValid(t.value) ==> time == UnixEpoch
  {
    match t
    case Some(ts) => if validity.timestampValid(ts) then AsTime(ts) else UnixEpoch
    case None => UnixEpoch
  }

  /** Go's `!now.Before(lastSync.Add(interval))`. */
  predicate IsDue(lastSync: int, interval: int, now: int) {
    now >= lastSync + interval
  }

  /** An instance whose interval is set and whose next sync time has come. */
  predicate InstanceDue(instance: Instance, now: int, validity: ProtoValidity) {
    var interval := GetOrDefaultSyncInterval(instance, validity);
    && interval != NeverSync
    && IsDue(GetOrDefaultLastSyncTime(instance.metadata.lastSyncTime, validity), interval, now)
  }

  /**
   * A database in state OK whose instance is listed, with an interval set and
   * the database's own next sync time come. The database inherits the interval.
   */
  predicate DatabaseDue(database: Database, byId: map<string, Instance>, now: int,
                        validity: ProtoValidity) {
    && database.syncState == SyncOk
    && database.instanceId in byId
    && var interval := GetOrDefaultSyncInterval(byId[database.instanceId], validity);
    && interval != NeverSync
    && IsDue(GetOrDefaultLastSyncTime(database.metadata.lastSyncTime, validity), interval, now)
  }

  /** `instancesMap`: instances by resource id, a later instance replacing an earlier one. */
  function IndexById(instances: seq<Instance>): (byId: map<string, Instance>)
    ensures forall i :: 0 <= i < |instances| ==> instances[i].resourceId in byId
    ensures forall id :: id in byId ==> byId[id].resourceId == id && byId[id] in instances
  {
    if |instances| == 0 then map[]
    else
      var init := instances[..|instances| - 1];
      var last := instances[|instances| - 1];
      assert instances == init + [last];
      IndexById(init)[last.resourceId := last]
  }

  /** Among instances sharing a resource id, the last one listed is the one kept. */
  lemma {:induction false} IndexByIdLastWins(instances: seq<Instance>, i: int)
    requires 0 <= i < |instances|
    requires forall j :: i < j < |instances| ==> instances[j].resourceId != instances[i].resourceId
    ensures IndexById(instances)[instances[i].resourceId] == instances[i]
    decreases |instances|
  {
    var init := instances[..|instances| - 1];
    if i < |instances| - 1 {
      IndexByIdLastWins(init, i);
    }
  }

  /** The databases queued by one pass, a later database replacing an earlier one with the same uid. */
  function DueEntries(databases: seq<Database>, byId: map<string, Instance>, now: int,
                      validity: ProtoValidity): (entries: map<int, Database>)
  {
    if |databases| == 0 then map[]
    else
      var last := databases[|databases| - 1];
      var m := DueEntries(databases[..|databases| - 1], byId, now, validity);
      if DatabaseDue(last, byId, now, validity) then m[last.uid := last] else m
  }

  /**
   * The due entries are keyed by exactly the uids of the due databases, and each
   * entry is a due database filed under its own uid.
   */
  lemma {:induction false} DueEntriesSpec(databases: seq<Database>, byId: map<string, Instance>,
                                          now: int, validity: ProtoValidity)
    ensures forall uid :: uid in DueEntries(databases, byId, now, validity) <==>
      exists i :: 0 <= i < |databases| && databases[i].uid == uid
                  && DatabaseDue(databases[i], byId, now, validity)
    ensures forall uid :: uid in DueEntries(databases, byId, now, validity) ==>
      && DueEntries(databases, byId, now, validity)[uid].uid == uid
      && DatabaseDue(DueEntries(databases, byId, now, validity)[uid], byId, now, validity)
    decreases |databases|
  {
    if |databases| > 0 {
      var n := |databases| - 1;
      var init := databases[..n];
      var last := databases[n];
      var m := DueEntries(init, byId, now, validity);
      var entries := DueEntries(databases, byId, now, validity);
      DueEntriesSpec(init, byId, now, validity);
      assert entries == if DatabaseDue(last, byId, now, validity) then m[last.uid := last] else m;
      forall uid
        ensures uid in entries <==>
          exists i :: 0 <= i < |databases| && databases[i].uid == uid
                      && DatabaseDue(databases[i], byId, now, validity)
      {
        if uid in entries && !(DatabaseDue(last, byId, now, validity) && uid == last.uid) {
          assert uid in m;
          var i :| 0 <= i < |init| && init[i].uid == uid && DatabaseDue(init[i], byId, now, validity);
          assert databases[i] == init[i];
        }
        if exists i :: 0 <= i < |databases| && databases[i].uid == uid
                       && DatabaseDue(databases[i], byId, now, validity) {
          var i :| 0 <= i < |databases| && databases[i].uid == uid
                   && DatabaseDue(databases[i], byId, now, validity);
          if i < n {
            assert init[i] == databases[i];
          }
        }
      }
    }
  }

  /** The instance half of `trySyncAll`: which listed instances get a `SyncInstance` call. */
  method DispatchInstances(instances: seq<Instance>, now: int, validity: ProtoValidity)
    returns (dispatched: seq<Instance>)
    ensures forall x :: x in dispatched <==> x in instances && InstanceDue(x, now, validity)
    ensures |dispatched| <= |instances|
  {
    dispatched := [];
    var i := 0;
    while i < |instances|
      invariant 0 <= i <= |instances|
      invariant forall x :: x in dispatched <==> x in instances[..i] && InstanceDue(x, now, validity)
      invariant |dispatched| <= i
    {
      var instance := instances[i];
      assert instances[..i + 1] == instances[..i] + [instance];
      i := i + 1;
      var interval := GetOrDefaultSyncInterval(instance, validity);
      if interval == NeverSync {
        continue;
      }
      var lastSyncTime := GetOrDefaultLastSyncTime(instance.metadata.lastSyncTime, validity);
      var nextSyncTime := lastSyncTime + interval;
      if now < nextSyncTime {
        continue;
      }
      dispatched := dispatched + [instance];
    }
    assert instances[..i] == instances;
  }

  /** Builds `instancesMap` the way `trySyncAll` does, one instance after another. */
  method BuildInstancesMap(instances: seq<Instance>) returns (instancesMap: map<string, Instance>)
    ensures instancesMap == IndexById(instances)
  {
    instancesMap := map[];
    var i := 0;
    while i < |instances|
      invariant 0 <= i <= |instances|
      invariant instancesMap == IndexById(instances[..i])
    {
      assert instances[..i + 1][..i] == instances[..i];
      instancesMap := instancesMap[instances[i].resourceId := instances[i]];
      i := i + 1;
    }
    assert instances[..i] == instances;
  }

  /** One more database either joins the due entries under its uid or leaves them as they were. */
  lemma DueEntriesSnoc(databases: seq<Database>, d: Database, byId: map<string, Instance>, now: int,
                       validity: ProtoValidity)
    ensures DueEntries(databases + [d], byId, now, validity)
         == if DatabaseDue(d, byId, now, validity)
            then DueEntries(databases, byId, now, validity)[d.uid := d]
            else DueEntries(databases, byId, now, validity)
  {
    assert (databases + [d])[..|databases|] == databases;
  }

  /** One more database keeps the running queue equal to the pending map merged with the due entries. */
  lemma QueueStep(pending: map<int, Database>, databases: seq<Database>, d: Database,
                  byId: map<string, Instance>, now: int, validity: ProtoValidity)
    ensures DatabaseDue(d, byId, now, validity) ==>
      (pending + DueEntries(databases, byId, now, validity))[d.uid := d]
        == pending + DueEntries(databases + [d], byId, now, validity)
    ensures !DatabaseDue(d, byId, now, validity) ==>
      pending + DueEntries(databases, byId, now, validity)
        == pending + DueEntries(databases + [d], byId, now, validity)
  {
    DueEntriesSnoc(databases, d, byId, now, validity);
  }

  /** What merging the due entries into the pending map keeps, adds and replaces. */
  lemma MergedQueue(pending: map<int, Database>, databases: seq<Database>,
                    byId: map<string, Instance>, now: int, validity: ProtoValidity)
    ensures var queued := pending + DueEntries(databases, byId, now, validity);
      forall uid :: uid in queued <==>
        (|| uid in pending
         || exists i :: 0 <= i < |databases| && databases[i].uid == uid
                        && DatabaseDue(databases[i], byId, now, validity))
    ensures var queued := pending + DueEntries(databases, byId, now, validity);
      forall uid :: uid in queued ==>
        (|| (uid in pending && queued[uid] == pending[uid])
         || (queued[uid].uid == uid && DatabaseDue(queued[uid], byId, now, validity)))
  {
    DueEntriesSpec(databases, byId, now, validity);
  }

  /** One turn of the database loop of `trySyncAll`, with its four `continue` filters. */
  method QueueOne(queued: map<int, Database>, database: Database, instancesMap: map<string, Instance>,
                  now: int, validity: ProtoValidity)
    returns (queued': map<int, Database>)
    ensures DatabaseDue(database, instancesMap, now, validity) ==> queued' == queued[database.uid := database]
    ensures !DatabaseDue(database, instancesMap, now, validity) ==> queued' == queued
  {
    queued' := queued;
    if database.syncState != SyncOk {
      return;
    }
    if database.instanceId !in instancesMap {
      return;
    }
    var instance := instancesMap[database.instanceId];
    var interval := GetOrDefaultSyncInterval(instance, validity);
    if interval == NeverSync {
      return;
    }
    var lastSyncTime := GetOrDefaultLastSyncTime(database.metadata.lastSyncTime, validity);
    var nextSyncTime := lastSyncTime + interval;
    if now < nextSyncTime {
      return;
    }
    queued' := queued[database.uid := database];
  }

  /**
   * The database half of `trySyncAll`: every due database is stored under its
   * uid in the pending sync map, and nothing else in the map changes.
   */
  method QueueDatabases(instances: seq<Instance>, databases: seq<Database>, now: int,
                        validity: ProtoValidity, pending: map<int, Database>)
    returns (queued: map<int, Database>)
    ensures queued == pending + DueEntries(databases, IndexById(instances), now, validity)
    ensures forall uid :: uid in queued <==>
      (|| uid in pending
       || exists i :: 0 <= i < |databases| && databases[i].uid == uid
                      && DatabaseDue(databases[i], IndexById(instances), now, validity))
    ensures forall uid :: uid in queued ==>
      (|| (uid in pending && queued[uid] == pending[uid])
       || (queued[uid].uid == uid && DatabaseDue(queued[uid], IndexById(instances), now, validity)))
  {
    var instancesMap := BuildInstancesMap(instances);
    queued := pending;
    var j := 0;
    while j < |databases|
      invariant 0 <= j <= |databases|
      invariant queued == pending + DueEntries(databases[..j], instancesMap, now, validity)
    {
      var database := databases[j];
      assert databases[..j + 1] == databases[..j] + [database];
      QueueStep(pending, databases[..j], database, instancesMap, now, validity);
      queued := QueueOne(queued, database, instancesMap, now, validity);
      j := j + 1;
    }
    assert databases[..j] == databases;
    MergedQueue(pending, databases, instancesMap, now, validity);
  }

  /**
   * `trySyncAll`: a failed instance listing stops the pass before anything is
   * done; a failed database listing stops it after the instances were dispatched.
   */
  method TrySyncAll(instances: Option<seq<Instance>>, databases: Option<seq<Database>>, now: int,
                    validity: ProtoValidity, pending: map<int, Database>)
    returns (dispatched: seq<Instance>, queued: map<int, Database>)
    ensures instances.None? ==> dispatched == []
    ensures instances.Some? ==>
      forall x :: x in dispatched <==> x in instances.value && InstanceDue(x, now, validity)
    ensures instances.None? || databases.None? ==> queued == pending
    ensures instances.Some? && databases.Some? ==>
      queued == pending + DueEntries(databases.value, IndexById(instances.value), now, validity)
    ensures instances.Some? && databases.Some? ==>
      forall uid :: uid in queued <==>
        (|| uid in pending
         || exists i :: 0 <= i < |databases.value| && databases.value[i].uid == uid
                        && DatabaseDue(databases.value[i], IndexById(instances.value), now, validity))
  {
    if instances.None? {
      return [], pending;
    }
    dispatched := DispatchInstances(instances.value, now, validity);
    if databases.None? {
      return dispatched, pending;
    }
    queued := QueueDatabases(instances.value, databases.value, now, validity, pending);
  }
}

=== FILE: schema_metadata.dfy ===
/**
 * What the syncer does to a freshly synced schema tree and which engines skip
 * the schema-drift check.
 */
module SchemaMetadata {
  import opened Store

  datatype Column = Column(name: string, dataType: string, comment: string, userComment: string)

  datatype Table = Table(name: string, comment: string, userComment: string,
                         columns: seq<Column>, rowCount: int)

  datatype Schema = Schema(name: string, tables: seq<Table>)

  datatype DatabaseSchema = DatabaseSchema(name: string, schemas: seq<Schema>)

  // ---------------------------------------------------------------- user comments

  predicate ColumnsCommented(columns: seq<Column>) {
    forall i :: 0 <= i < |columns| ==> columns[i].userComment == columns[i].comment
  }

  predicate TableCommented(t: Table) {
    t.userComment == t.comment && ColumnsCommented(t.columns)
  }

  predicate TablesCommented(tables: seq<Table>) {
    forall i :: 0 <= i < |tables| ==> TableCommented(tables[i])
  }

  /** Every table's and every column's user comment equals its comment. */
  predicate AllCommented(db: DatabaseSchema) {
    forall i :: 0 <= i < |db.schemas| ==> TablesCommented(db.schemas[i].tables)
  }

  /** The tree with every user comment blanked: what the copy must leave alone. */
  function EraseColumns(columns: seq<Column>): (r: seq<Column>)
    ensures |r| == |columns|
  {
    if |columns| == 0 then []
    else [columns[0].(userComment := "")] + EraseColumns(columns[1..])
  }

  function EraseTables(tables: seq<Table>): (r: seq<Table>)
    ensures |r| == |tables|
  {
    if |tables| == 0 then []
    else [tables[0].(userComment := "", columns := EraseColumns(tables[0].columns))]
         + EraseTables(tables[1..])
  }

  function EraseSchemas(schemas: seq<Schema>): (r: seq<Schema>)
    ensures |r| == |schemas|
  {
    if |schemas| == 0 then []
    else [schemas[0].(tables := EraseTables(schemas[0].tables))] + EraseSchemas(schemas[1..])
  }

  function EraseUserComments(db: DatabaseSchema): (r: DatabaseSchema) {
    db.(schemas := EraseSchemas(db.schemas))
  }

  function CopyColumnComments(columns: seq<Column>): (r: seq<Column>)
    ensures |r| == |columns|
    ensures ColumnsCommented(r)
    ensures EraseColumns(r) == EraseColumns(columns)
  {
    if |columns| == 0 then []
    else [columns[0].(userComment := columns[0].comment)] + CopyColumnComments(columns[1..])
  }

  function CopyTableComments(tables: seq<Table>): (r: seq<Table>)
    ensures |r| == |tables|
    ensures TablesCommented(r)
    ensures EraseTables(r) == EraseTables(tables)
  {
    if |tables| == 0 then []
    else
      var t := tables[0];
      [t.(userComment := t.comment, columns := CopyColumnComments(t.columns))]
      + CopyTableComments(tables[1..])
  }

  function CopySchemaComments(schemas: seq<Schema>): (r: seq<Schema>)
    ensures |r| == |schemas|
    ensures forall i :: 0 <= i < |r| ==> TablesCommented(r[i].tables)
    ensures EraseSchemas(r) == EraseSchemas(schemas)
  {
    if |schemas| == 0 then []
    else [schemas[0].(tables := CopyTableComments(schemas[0].tables))]
         + CopySchemaComments(schemas[1..])
  }

  /**
   * `setUserCommentFromComment`: afterwards every table's and column's user
   * comment is its comment, and apart from user comments the tree is unchanged.
   */
  function SetUserCommentFromComment(db: DatabaseSchema): (r: DatabaseSchema)
    ensures AllCommented(r)
    ensures EraseUserComments(r) == EraseUserComments(db)
  {
    db.(schemas := CopySchemaComments(db.schemas))
  }

  /** A tree whose user comments already match its comments is left exactly as it is. */
  lemma {:induction false} CopyColumnCommentsFixed(columns: seq<Column>)
    requires ColumnsCommented(columns)
    ensures CopyColumnComments(columns) == columns
    decreases |columns|
  {
    if |columns| > 0 {
      CopyColumnCommentsFixed(columns[1..]);
      assert [columns[0]] + columns[1..] == columns;
    }
  }

  lemma {:induction false} CopyTableCommentsFixed(tables: seq<Table>)
    requires TablesCommented(tables)
    ensures CopyTableComments(tables) == tables
    decreases |tables|
  {
    if |tables| > 0 {
      CopyColumnCommentsFixed(tables[0].columns);
      CopyTableCommentsFixed(tables[1..]);
      assert [tables[0]] + tables[1..] == tables;
    }
  }

  lemma {:induction false} CopySchemaCommentsFixed(schemas: seq<Schema>)
    requires forall i :: 0 <= i < |schemas| ==> TablesCommented(schemas[i].tables)
    ensures CopySchemaComments(schemas) == schemas
    decreases |schemas|
  {
    if |schemas| > 0 {
      CopyTableCommentsFixed(schemas[0].tables);
      CopySchemaCommentsFixed(schemas[1..]);
      assert [schemas[0]] + schemas[1..] == schemas;
    }
  }

  /**
   * The copy changes a tree exactly when some user comment differs from its
   * comment; in particular running it twice is running it once.
   */
  lemma SetUserCommentFixedPoint(db: DatabaseSchema)
    ensures SetUserCommentFromComment(db) == db <==> AllCommented(db)
    ensures SetUserCommentFromComment(SetUserCommentFromComment(db)) == SetUserCommentFromComment(db)
  {
    if AllCommented(db) {
      CopySchemaCommentsFixed(db.schemas);
    }
    var once := SetUserCommentFromComment(db);
    CopySchemaCommentsFixed(once.schemas);
  }

  // ---------------------------------------------------------------- engine rules

  /** The schemaless or unsupported engines for which no schema-drift anomaly is checked. */
  function DisableSchemaDriftAnomalyCheck(engine: Engine): (disabled: bool)
    ensures disabled <==> engine in {MongoDb, Redis, Oracle, OceanBaseOracle, MsSql, Redshift}
  {
    match engine
    case MongoDb | Redis | Oracle | OceanBaseOracle | MsSql | Redshift => true
    case _ => false
  }

  /**
   * Whether `SyncDatabaseSchema` takes the user-comment-only path: always for
   * engines other than MySQL and PostgreSQL, otherwise as the classification
   * configuration says.
   */
  function UserCommentOnly(engine: Engine, classificationFromConfig: bool): (commentOnly: bool)
    ensures commentOnly <==> classificationFromConfig || (engine != MySql && engine != Postgres)
  {
    var fromConfig := if engine != MySql && engine != Postgres then true else classificationFromConfig;
    fromConfig
  }

  /** Every engine that skips the drift check also never derives classifications from comments. */
  lemma DriftExemptEnginesCopyCommentsOnly(engine: Engine, classificationFromConfig: bool)
    requires DisableSchemaDriftAnomalyCheck(engine)
    ensures UserCommentOnly(engine, classificationFromConfig)
  {
  }
}

=== FILE: segments.dfy ===
/**
 * `String.prototype.split("-")` and `Array.prototype.join("-")` over `seq<char>`,
 * the two primitives every composite slug is built and taken apart with.
 */
module Segments {

  /** The fixed join delimiter of composite slugs. */
  const Delim: char := '-'

  /** True when no part of `parts` contains the delimiter. */
  predicate DashFree(parts: seq<string>) {
    forall i :: 0 <= i < |parts| ==> Delim !in parts[i]
  }

  /**
   * JavaScript `s.split("-")`: the maximal delimiter-free runs of `s`, in order.
   * The empty string splits into one empty segment, never into no segment.
   */
  function Split(s: string): (parts: seq<string>)
    ensures |parts| >= 1
    ensures DashFree(parts)
  {
    if |s| == 0 then [""]
    else if s[0] == Delim then [""] + Split(s[1..])
    else
      var rest := Split(s[1..]);
      [[s[0]] + rest[0]] + rest[1..]
  }

  /** JavaScript `parts.join("-")`. */
  function Join(parts: seq<string>): (joined: string)
  {
    if |parts| == 0 then ""
    else if |parts| == 1 then parts[0]
    else parts[0] + [Delim] + Join(parts[1..])
  }

  /** `parts[parts.length - 1]` after a split: the segment after the last delimiter. */
  function LastSegment(s: string): (last: string)
    ensures Delim !in last
    ensures Delim !in s ==> last == s
  {
    var parts := Split(s);
    assert Delim !in s ==> parts == [s] by {
      if Delim !in s { SplitDashFree(s); }
    }
    parts[|parts| - 1]
  }

  /** The segments before the last one: `parts` after `parts.pop()`. */
  function InitSegments(s: string): (init: seq<string>)
    ensures DashFree(init)
    ensures |init| == 0 <==> Delim !in s
  {
    var parts := Split(s);
    SplitCount(s);
    parts[..|parts| - 1]
  }

  /** A string splits into more than one segment exactly when it holds a delimiter. */
  lemma {:induction false} SplitCount(s: string)
    ensures |Split(s)| == 1 <==> Delim !in s
    decreases |s|
  {
    if |s| > 0 {
      SplitCount(s[1..]);
      assert s == [s[0]] + s[1..];
    }
  }

  /**
   * The remainder rejoined: `parts.pop(); parts.join("-")`. It is empty when
   * there is no delimiter; otherwise it is everything before the last one.
   */
  function Residual(s: string): (r: string)
    ensures Delim !in s ==> r == ""
    ensures Delim in s ==> s == r + [Delim] + LastSegment(s)
  {
    var init := InitSegments(s);
    assert Delim in s ==> s == Join(init) + [Delim] + LastSegment(s) by {
      JoinSplit(s);
      if Delim in s {
        assert Split(s) == init + [LastSegment(s)];
        JoinAppend(init, LastSegment(s));
      }
    }
    Join(init)
  }

  /** `[a, b].join("-")` is `a`, the delimiter, then `b`. */
  lemma JoinPair(a: string, b: string)
    ensures Join([a, b]) == a + [Delim] + b
  {
  }

  /** `join("-")` begins with the first part and ends with the last one. */
  lemma {:induction false} JoinEnds(parts: seq<string>)
    requires |parts| > 0
    ensures parts[0] <= Join(parts)
    ensures |parts[|parts| - 1]| <= |Join(parts)|
    ensures Join(parts)[|Join(parts)| - |parts[|parts| - 1]|..] == parts[|parts| - 1]
    decreases |parts|
  {
    if |parts| > 1 {
      var rest := Join(parts[1..]);
      JoinEnds(parts[1..]);
      assert Join(parts) == parts[0] + [Delim] + rest;
      assert parts[1..][|parts[1..]| - 1] == parts[|parts| - 1];
      assert Join(parts)[|Join(parts)| - |rest|..] == rest;
    }
  }

  /** `join("-")` of delimiter-free parts holds exactly one delimiter between each neighbouring pair. */
  lemma {:induction false} JoinDelimiterCount(parts: seq<string>)
    requires |parts| > 0 && DashFree(parts)
    ensures multiset(Join(parts))[Delim] == |parts| - 1
    decreases |parts|
  {
    assert Delim !in parts[0];
    if |parts| > 1 {
      var rest := Join(parts[1..]);
      assert DashFree(parts[1..]);
      JoinDelimiterCount(parts[1..]);
      assert multiset(Join(parts)) == multiset(parts[0]) + multiset([Delim]) + multiset(rest);
    }
  }

  /** Joining appends one delimiter and the new last part. */
  lemma {:induction false} JoinAppend(parts: seq<string>, t: string)
    requires |parts| >= 1
    ensures Join(parts + [t]) == Join(parts) + [Delim] + t
    decreases |parts|
  {
    if |parts| == 1 {
      assert parts + [t] == [parts[0], t];
      assert [parts[0], t][1..] == [t];
    } else {
      assert (parts + [t])[1..] == parts[1..] + [t];
      JoinAppend(parts[1..], t);
    }
  }

  /** A delimiter-free string splits into itself alone. */
  lemma {:induction false} SplitDashFree(t: string)
    requires Delim !in t
    ensures Split(t) == [t]
    decreases |t|
  {
    if |t| > 0 {
      assert Delim !in t[1..];
      SplitDashFree(t[1..]);
      assert [t[0]] + t[1..] == t;
    }
  }

  /** One step of Split: how the first character extends the split of the rest. */
  lemma SplitStep(s: string)
    requires |s| > 0
    ensures s[0] == Delim ==> Split(s) == [""] + Split(s[1..])
    ensures s[0] != Delim ==>
      Split(s) == [[s[0]] + Split(s[1..])[0]] + Split(s[1..])[1..]
  {
  }

  /** A delimiter-free head followed by a delimiter becomes a segment of its own. */
  lemma {:induction false} SplitHeadSegment(a: string, rest: string)
    requires Delim !in a
    ensures Split(a + [Delim] + rest) == [a] + Split(rest)
    decreases |a|
  {
    var s := a + [Delim] + rest;
    SplitStep(s);
    if |a| == 0 {
      assert s[1..] == rest;
    } else {
      assert s[1..] == a[1..] + [Delim] + rest;
      SplitHeadSegment(a[1..], rest);
      assert [a[0]] + a[1..] == a;
    }
  }

  /** Splitting distributes over a delimiter: the one place a slug is glued together. */
  lemma SplitConcat(p: string, t: string)
    ensures Split(p + [Delim] + t) == Split(p) + Split(t)
  {
    var a := Split(p);
    var b := Split(t);
    JoinSplit(p);
    JoinSplit(t);
    JoinConcat(a, b);
    SplitJoin(a + b);
  }

  /** Join undoes Split, for every string. */
  lemma {:induction false} JoinSplit(s: string)
    ensures Join(Split(s)) == s
    decreases |s|
  {
    if |s| > 0 {
      JoinSplit(s[1..]);
      var rest := Split(s[1..]);
      if s[0] == Delim {
        assert ([""] + rest)[1..] == rest;
      } else {
        var parts := [[s[0]] + rest[0]] + rest[1..];
        if |rest| == 1 {
          assert parts == [[s[0]] + rest[0]];
        } else {
          assert parts[1..] == rest[1..];
          assert Join(rest) == rest[0] + [Delim] + Join(rest[1..]);
        }
        assert [s[0]] + s[1..] == s;
      }
    }
  }

  /** Split undoes Join, for any non-empty list of delimiter-free parts. */
  lemma {:induction false} SplitJoin(parts: seq<string>)
    requires |parts| >= 1
    requires DashFree(parts)
    ensures Split(Join(parts)) == parts
    decreases |parts|
  {
    if |parts| == 1 {
      SplitDashFree(parts[0]);
    } else {
      SplitJoin(parts[1..]);
      SplitHeadSegment(parts[0], Join(parts[1..]));
      assert [parts[0]] + parts[1..] == parts;
    }
  }

  /**
   * Every string is its residual, a delimiter, and its last segment, or is its own
   * last segment when it has no delimiter: the last segment is the longest
   * delimiter-free suffix.
   */
  lemma SplitShape(s: string)
    ensures Delim !in s ==> Residual(s) == "" && LastSegment(s) == s
    ensures Delim in s ==> s == Residual(s) + [Delim] + LastSegment(s)
  {
    var parts := Split(s);
    JoinSplit(s);
    if Delim in s {
      assert parts == InitSegments(s) + [LastSegment(s)];
      JoinAppend(InitSegments(s), LastSegment(s));
    }
  }

  /**
   * Appending a delimiter and a delimiter-free segment `t` to any `p` makes `t`
   * the last segment and leaves exactly `p` as the residual, whatever `p` holds.
   */
  lemma AppendedSegment(p: string, t: string)
    requires Delim !in t
    ensures LastSegment(p + [Delim] + t) == t
    ensures Residual(p + [Delim] + t) == p
  {
    SplitConcat(p, t);
    SplitDashFree(t);
    var s := p + [Delim] + t;
    assert Split(s) == Split(p) + [t];
    assert InitSegments(s) == Split(p);
    JoinSplit(p);
  }

  /**
   * When the appended part itself contains a delimiter, only its tail is
   * recovered as the last segment and the residual is strictly longer than `p`.
   */
  lemma AppendedDashedSegment(p: string, t: string)
    requires Delim in t
    ensures LastSegment(p + [Delim] + t) == LastSegment(t) != t
    ensures Residual(p + [Delim] + t) == p + [Delim] + Residual(t)
  {
    var s := p + [Delim] + t;
    SplitConcat(p, t);
    var a := Split(p);
    var b := Split(t);
    assert Split(s) == a + b;
    assert InitSegments(s) == a + InitSegments(t);
    JoinSplit(p);
    JoinConcat(a, InitSegments(t));
  }

  /** Joining two non-empty part lists puts one delimiter between their joins. */
  lemma {:induction false} JoinConcat(a: seq<string>, b: seq<string>)
    requires |a| >= 1 && |b| >= 1
    ensures Join(a + b) == Join(a) + [Delim] + Join(b)
    decreases |a|
  {
    if |a| == 1 {
      assert (a + b)[1..] == b;
    } else {
      assert (a + b)[1..] == a[1..] + b;
      JoinConcat(a[1..], b);
    }
  }
}

=== FILE: slug.dfy ===
/**
 * Composite slugs of `frontend/src/utils/slug.ts`: a normalised display name,
 * the delimiter `-`, and an identifier that is appended last and never
 * normalised. The `slug` normaliser, `getProjectName`, `getWorksheetId` and the
 * resource-name prefixes live outside this file and are parameters here.
 */
module Slug {
  import opened Wrappers
  import opened Segments
  import opened Numbers

  /** A review policy; only its identifier takes part in the slug. */
  datatype SqlReviewPolicy = SqlReviewPolicy(id: string, name: string)

  /** A worksheet with its resource name (`worksheets/{id}`) and its project's resource name. */
  datatype Worksheet = Worksheet(name: string, project: string)

  function Abs(n: int): (m: nat) {
    if n < 0 then -n else n
  }

  // ---------------------------------------------------------------- decoders

  /**
   * Numeric identifier or index carried by a slug, with -1 standing for "none":
   * the last segment is read with `parseInt(_, 10)` and NaN or a negative value
   * becomes -1.
   */
  function IndexOrUidFromSlug(slug: string): (r: int)
    ensures r == -1 || r >= 0
  {
    match ParseInt(LastSegment(slug), Some(10))
    case None => -1
    case Some(v) => if v < 0 then -1 else v
  }

  /** Numeric identifier of a slug, read with the radix-less `parseInt`; None is NaN. */
  function UidFromSlug(slug: string): (r: Option<int>)
    ensures r.Some? ==> r.value >= 0
  {
    ParseUnsignedNonNegative(LastSegment(slug), None);
    ParseInt(LastSegment(slug), None)
  }

  /**
   * Opaque identifier of a slug: the text after its last delimiter, or the whole
   * slug when it has none.
   */
  function IdFromSlug(slug: string): (id: string)
    ensures Delim !in id
    ensures Delim !in slug ==> id == slug
    ensures |id| <= |slug| && slug[|slug| - |id|..] == id
    ensures |id| < |slug| ==> slug[|slug| - |id| - 1] == Delim
  {
    SplitShape(slug);
    LastSegment(slug)
  }

  /**
   * Project resource name of a worksheet slug: the prefix followed by everything
   * before the last delimiter, with its inner delimiters kept.
   */
  function ProjectNameFromSheetSlug(projectNamePrefix: string, slug: string): (name: string)
    ensures |projectNamePrefix| <= |name| && name[..|projectNamePrefix|] == projectNamePrefix
    ensures Delim !in slug ==> name == projectNamePrefix
    ensures Delim in slug ==>
      slug == name[|projectNamePrefix|..] + [Delim] + IdFromSlug(slug)
  {
    SplitShape(slug);
    projectNamePrefix + Residual(slug)
  }

  /** Worksheet resource name of a worksheet slug: the prefix followed by the last segment. */
  function WorksheetNameFromSlug(worksheetNamePrefix: string, slug: string): (name: string)
    ensures |worksheetNamePrefix| <= |name| && name[..|worksheetNamePrefix|] == worksheetNamePrefix
    ensures Delim !in name[|worksheetNamePrefix|..]
    ensures name == worksheetNamePrefix + IdFromSlug(slug)
  {
    var name := worksheetNamePrefix + LastSegment(slug);
    assert name[|worksheetNamePrefix|..] == LastSegment(slug);
    name
  }

  /**
   * 0-based index of a slug that carries a 1-based position: the radix-less
   * `parseInt` of the last segment minus one; None is NaN.
   */
  function IndexFromSlug(slug: string): (r: Option<int>)
    ensures r.Some? ==> r.value >= -1
  {
    ParseUnsignedNonNegative(LastSegment(slug), None);
    match ParseInt(LastSegment(slug), None)
    case None => None
    case Some(v) => Some(v - 1)
  }

  // ---------------------------------------------------------------- encoders

  /** `[token, id].join("-")` with the identifier rendered by `String(id)`. */
  function NumericSlug(token: string, id: int): (slug: string)
    ensures |token| < |slug| && slug[..|token|] == token
    ensures LastSegment(slug) == NatToString(Abs(id))
    ensures slug == token + [Delim] + IntToString(id)
  {
    var slug := Join([token, IntToString(id)]);
    JoinPair(token, IntToString(id));
    assert LastSegment(slug) == NatToString(Abs(id)) by {
      if id >= 0 {
        AppendedSegment(token, NatToString(id));
      } else {
        assert slug == (token + [Delim]) + [Delim] + NatToString(-id);
        AppendedSegment(token + [Delim], NatToString(-id));
      }
    }
    slug
  }

  function IssueSlug(slugify: string -> string, issueName: string, issueId: int): (slug: string)
    ensures |slugify(issueName)| < |slug| && slug[..|slugify(issueName)|] == slugify(issueName)
    ensures LastSegment(slug) == NatToString(Abs(issueId))
    ensures slug == slugify(issueName) + [Delim] + IntToString(issueId)
  {
    NumericSlug(slugify(issueName), issueId)
  }

  function PlanSlug(slugify: string -> string, planName: string, planId: int): (slug: string)
    ensures |slugify(planName)| < |slug| && slug[..|slugify(planName)|] == slugify(planName)
    ensures LastSegment(slug) == NatToString(Abs(planId))
    ensures slug == slugify(planName) + [Delim] + IntToString(planId)
  {
    NumericSlug(slugify(planName), planId)
  }

  function TaskSlug(slugify: string -> string, name: string, id: int): (slug: string)
    ensures |slugify(name)| < |slug| && slug[..|slugify(name)|] == slugify(name)
    ensures LastSegment(slug) == NatToString(Abs(id))
    ensures slug == slugify(name) + [Delim] + IntToString(id)
  {
    NumericSlug(slugify(name), id)
  }

  /** Stage slugs show the 0-based index as a 1-based position. */
  function StageSlug(slugify: string -> string, stageName: string, stageIndex: int): (slug: string)
    ensures |slugify(stageName)| < |slug| && slug[..|slugify(stageName)|] == slugify(stageName)
    ensures LastSegment(slug) == NatToString(Abs(stageIndex + 1))
    ensures slug == slugify(stageName) + [Delim] + IntToString(stageIndex + 1)
  {
    NumericSlug(slugify(stageName), stageIndex + 1)
  }

  /** A review policy's slug is its identifier, without any name part. */
  function SqlReviewPolicySlug(policy: SqlReviewPolicy): (slug: string)
    ensures slug == policy.id
    ensures Delim !in policy.id ==> IdFromSlug(slug) == policy.id
  {
    policy.id
  }

  /** `[projectName, uid].join("-")`: a worksheet slug carries no normalised name. */
  function WorksheetSlugV1(getProjectName: string -> string, getWorksheetId: string -> string,
                           sheet: Worksheet): (slug: string)
    ensures slug == getProjectName(sheet.project) + [Delim] + getWorksheetId(sheet.name)
  {
    var projectName := getProjectName(sheet.project);
    var slug := Join([projectName, getWorksheetId(sheet.name)]);
    JoinPair(projectName, getWorksheetId(sheet.name));
    assert slug[|projectName|] == Delim;
    slug
  }

  // ---------------------------------------------------------------- properties

  /**
   * Identifier round trip of the issue, plan and task slugs: whatever the
   * normaliser returns, delimiters and digits included, a non-negative id comes
   * back from both numeric decoders, and a negative id never does.
   */
  lemma NumericSlugRoundTrip(slugify: string -> string, name: string, id: int)
    ensures IndexOrUidFromSlug(IssueSlug(slugify, name, id)) == id <==> id >= 0
    ensures IndexOrUidFromSlug(PlanSlug(slugify, name, id)) == id <==> id >= 0
    ensures IndexOrUidFromSlug(TaskSlug(slugify, name, id)) == id <==> id >= 0
    ensures UidFromSlug(IssueSlug(slugify, name, id)) == Some(id) <==> id >= 0
    ensures UidFromSlug(PlanSlug(slugify, name, id)) == Some(id) <==> id >= 0
    ensures UidFromSlug(TaskSlug(slugify, name, id)) == Some(id) <==> id >= 0
  {
    var token := slugify(name);
    ParseNatToString(Abs(id));
    assert IndexOrUidFromSlug(NumericSlug(token, id)) == Abs(id);
    assert UidFromSlug(NumericSlug(token, id)) == Some(Abs(id));
  }

  /**
   * A negative id, rendered with its minus sign, lands in a segment of its own:
   * the decoders then return its magnitude, never the sentinel.
   */
  lemma NegativeIdDecodesToMagnitude(slugify: string -> string, name: string, id: int)
    requires id < 0
    ensures IndexOrUidFromSlug(IssueSlug(slugify, name, id)) == -id
    ensures IdFromSlug(IssueSlug(slugify, name, id)) == NatToString(-id)
  {
    ParseNatToString(-id);
  }

  /** Stage round trip: the 1-based position decodes back to the 0-based index exactly when index >= -1. */
  lemma StageSlugRoundTrip(slugify: string -> string, stageName: string, stageIndex: int)
    ensures IndexFromSlug(StageSlug(slugify, stageName, stageIndex)) == Some(stageIndex)
            <==> stageIndex >= -1
  {
    ParseNatToString(Abs(stageIndex + 1));
  }

  /**
   * The sentinel: -1 comes back exactly when the last segment does not start
   * with a decimal digit (after an optional `+`); this covers the empty slug
   * and a delimiter-free non-numeric slug.
   */
  lemma IndexOrUidSentinel(slug: string)
    ensures IndexOrUidFromSlug(slug) == -1 <==> !StartsNumeral(LastSegment(slug))
  {
    DecimalParseFails(LastSegment(slug));
    ParseUnsignedNonNegative(LastSegment(slug), Some(10));
  }

  /**
   * The negative branch of the sentinel test is dead: a segment of a split on
   * `-` cannot carry a minus sign, so `parseInt` never returns a negative number.
   */
  lemma NegativeBranchUnreachable(slug: string)
    ensures ParseInt(LastSegment(slug), Some(10)).None?
            || ParseInt(LastSegment(slug), Some(10)).value >= 0
  {
  }

  /** A review policy's identifier is recovered exactly when it holds no delimiter. */
  lemma SqlReviewPolicyRoundTrip(policy: SqlReviewPolicy)
    ensures IdFromSlug(SqlReviewPolicySlug(policy)) == policy.id <==> Delim !in policy.id
  {
  }

  /**
   * Worksheet round trip: both resource names are recovered exactly when the
   * worksheet id holds no delimiter, whatever the project name holds.
   */
  lemma WorksheetRoundTrip(getProjectName: string -> string, getWorksheetId: string -> string,
                           sheet: Worksheet, projectNamePrefix: string, worksheetNamePrefix: string)
    ensures var slug := WorksheetSlugV1(getProjectName, getWorksheetId, sheet);
      ProjectNameFromSheetSlug(projectNamePrefix, slug)
        == projectNamePrefix + getProjectName(sheet.project)
      <==> Delim !in getWorksheetId(sheet.name)
    ensures var slug := WorksheetSlugV1(getProjectName, getWorksheetId, sheet);
      WorksheetNameFromSlug(worksheetNamePrefix, slug)
        == worksheetNamePrefix + getWorksheetId(sheet.name)
      <==> Delim !in getWorksheetId(sheet.name)
  {
    var p := getProjectName(sheet.project);
    var uid := getWorksheetId(sheet.name);
    var slug := WorksheetSlugV1(getProjectName, getWorksheetId, sheet);
    JoinPair(p, uid);
    if Delim !in uid {
      AppendedSegment(p, uid);
    } else {
      AppendedDashedSegment(p, uid);
      assert |Residual(slug)| > |p|;
    }
  }

  /** The decision is taken by the leading digits of the last segment, not by its last character. */
  lemma LeadingDigitsDecide()
    ensures IndexOrUidFromSlug("4a") == 4
    ensures IndexOrUidFromSlug("") == -1
  {
    SplitDashFree("4a");
    NumeralPrefix(4, "a");
    assert NatToString(4) == "4";
    assert NatToString(4) + "a" == "4a";
    SplitDashFree("");
  }

  /** Worked example: a slug with one delimiter. */
  lemma ReportExample()
    ensures IndexOrUidFromSlug("report-42") == 42
    ensures ProjectNameFromSheetSlug("", "report-42") == "report"
  {
    assert NatToString(42) == "42";
    assert "report-42" == "report" + [Delim] + NatToString(42);
    AppendedSegment("report", NatToString(42));
    ParseNatToString(42);
  }

  /** Worked example: delimiters inside the name part do not disturb the identifier. */
  lemma EmbeddedDelimitersExample()
    ensures IndexOrUidFromSlug("my-report-name-7") == 7
  {
    assert NatToString(7) == "7";
    assert "my-report-name-7" == "my-report-name" + [Delim] + NatToString(7);
    AppendedSegment("my-report-name", NatToString(7));
    ParseNatToString(7);
  }

  /** Worked example: an opaque identifier comes back verbatim. */
  lemma OpaqueIdExample()
    ensures IdFromSlug("policy-abc123") == "abc123"
  {
    assert "policy-abc123" == "policy" + [Delim] + "abc123";
    AppendedSegment("policy", "abc123");
  }
}

=== FILE: store.dfy ===
/**
 * The store records and protobuf values the schema syncer
 * (`backend/runner/schemasync/syncer.go`) reads. Times and durations are
 * integers counting nanoseconds; times count from the Unix epoch.
 */
module Store {
  import opened Wrappers

  /** A protobuf `Duration`. */
  datatype Duration = Duration(seconds: int, nanos: int)

  /** A protobuf `Timestamp`. */
  datatype Timestamp = Timestamp(seconds: int, nanos: int)

  /**
   * The protobuf validity checks `Duration.IsValid` and `Timestamp.IsValid`,
   * which belong to the protobuf runtime and are taken as given predicates.
   */
  datatype ProtoValidity = ProtoValidity(durationValid: Duration -> bool,
                                         timestampValid: Timestamp -> bool)

  const NanosPerSecond: int := 1_000_000_000

  /** `Duration.AsDuration`, in nanoseconds. */
  function AsDuration(d: Duration): (nanos: int) {
    d.seconds * NanosPerSecond + d.nanos
  }

  /** `Timestamp.AsTime`, in nanoseconds since the epoch. */
  function AsTime(t: Timestamp): (nanos: int) {
    t.seconds * NanosPerSecond + t.nanos
  }

  /**
   * Database engines. The eight named here are the ones the syncer treats
   * specially; `OtherEngine` stands for each remaining enum value, by its name.
   * The type does not stop `OtherEngine` from carrying one of the eight names;
   * such a value is not one the syncer can see.
   */
  datatype Engine =
    | MySql | Postgres
    | MongoDb | Redis | Oracle | OceanBaseOracle | MsSql | Redshift
    | OtherEngine(enumName: string)

  /** Instance options; `syncInterval == None` is Go's nil. */
  datatype InstanceOptions = InstanceOptions(syncInterval: Option<Duration>)

  /** Instance metadata; `lastSyncTime == None` is Go's nil. */
  datatype InstanceMetadata = InstanceMetadata(lastSyncTime: Option<Timestamp>,
                                               mysqlLowerCaseTableNames: int)

  datatype Instance = Instance(
    uid: int,
    resourceId: string,
    activation: bool,
    engine: Engine,
    engineVersion: string,
    options: InstanceOptions,
    metadata: InstanceMetadata)

  /** A database's sync state: `OK` while the engine reports it, `NOT_FOUND` once it vanished. */
  datatype SyncState = SyncOk | NotFound

  datatype DatabaseMetadata = DatabaseMetadata(lastSyncTime: Option<Timestamp>)

  datatype Database = Database(
    uid: int,
    instanceId: string,
    name: string,
    projectId: string,
    syncState: SyncState,
    metadata: DatabaseMetadata)
}

=== FILE: wrappers.dfy ===
/** Failure-carrying result type shared by the codec and the syncer model. */
module Wrappers {

  /** `None` stands for JavaScript's NaN, Go's nil or a failed store call. */
  datatype Option<+T> = None | Some(value: T)
}
